=== FILE: README.md ===
# mosaicPhoto in Dafny

A model of the jQuery plugin `mosaicPhoto`. The plugin fills a container with a
mosaic: a grid of `rows` by `cols` cells of which a random subset shows images
drawn at random from one category of an image catalogue.

The model covers the plugin's closure state and the functions that update it:

- `_repairRatio` brings the fill ratio into range.
- `_selectCategory` and `_selectFirstCategory` validate the active category.
- `_newColsRows` fits the grid to the container.
- `_setMaxImages` computes the capacity.
- `_randomFromArray` is the sampler.
- `_populate` samples images and cell indices, sorts the indices and scans the grid in raster order.
- `_checkTimer` keeps at most one auto-refresh interval.
- `checkOptions` and `Initialize` sequence the steps above.
- The resize handler, the category listener, `setOptions`, `selectCategory` and `destroy` are modelled as methods.

Layout of the project:

- `common.dfy`: `Option`, `Math.min`, and `Array.prototype.shift` as `Head`/`Tail`.
- `categories.dfy`: the catalogue as a sequence of own properties in for-in order, and category selection as functions.
- `sampler.dfy`: `_randomFromArray` as a loop proved against the shuffle function `Shuffle`, and the loop that lists the cell indices.
- `sorting.dfy`: the numeric `sort` as an insertion-sort function, proved ascending and a permutation.
- `capacity.dfy`: the ratio repair and the capacity as functions on exact reals.
- `raster.dfy`: the nested scan loop of `_populate`, proved equal to the function `Placement`, and the geometry of the emitted cells.
- `mosaic.dfy`: the class `Mosaic`, whose fields are the settings and closure variables, with one method per closure function; the function `Layout` describes one successful `_populate`.

Inputs the plugin reads from the page or the runtime become parameters:

- `Math.random` is a stream of draws (`seq<nat>`). Each pass of the shuffle splices out the index `draws[0] % remaining`.
- The measured cell size and the container size are plain numbers.
- Timer handles come from a counter.
- The emitted HTML is a sequence of `Cell(top, left, src, link)` records.

Behaviour kept as the code has it:

- **Last sampled cell.** `_populate` emits one cell fewer than it samples. The last sampled index is shifted out before `divs.length` is tested, so it is never reached. So even at ratio 1, which the `ratio` default's comment describes as "all spots are filled", one sampled spot stays empty: three images on a 2 by 2 grid fill two cells (`ThreeImagesFillTwoCells`).
- **Stale capacity.** The resize handler re-runs `_newColsRows` and `_populate` but not `_setMaxImages`, so it keeps a capacity computed for the old grid (`OnResize`, `StaleCapacityIsClamped`).
- **Public `selectCategory`.** It stores the category and does not re-render.
- **Zero capacity.** `_populate` returns before clearing the container and before `showAllCallback`. The callback's default comment says it runs after the mosaic has been filled, and it does not run when nothing is filled.
- **`destroy`.** It clears the interval and removes the container. Its `undelegate` call is made on the window with the bare namespace. It removes neither the resize handler bound on the window nor the category listener delegated on the document.
- **`setOptions`.** It re-runs `checkOptions` without re-rendering. The catalogue captured at construction (`images = settings.images`) is never replaced.

## Model

| member | source | states |
|---|---|---|
| Common.Min | js/jquery.mosaicPhoto.js:113 | `Math.min` of two integers (no contract: it is the definition used by the capacity and the clamp) |
| Common.Head | js/jquery.mosaicPhoto.js:135-136 | the value `shift` returns (no contract: it is the definition; what it means is `Common.ShiftSplits`) |
| Common.ShiftSplits | js/jquery.mosaicPhoto.js:135-136 | `shift` returns `undefined` exactly for an empty array; otherwise the returned element put back in front of what is left restores the array |
| Common.Tail | js/jquery.mosaicPhoto.js:159-160 | what `shift` leaves is one element shorter, or empty for an empty array, and holds the elements after the first in their order |
| Categories.Get | js/jquery.mosaicPhoto.js:67 | `images[name]` is missing exactly when no own key has that name, and otherwise is that key's value |
| Categories.Usable | js/jquery.mosaicPhoto.js:67 | the test `_selectCategory` keeps a name by: truthy, an own key, and `typeof` its value is 'object' (a predicate, no contract) |
| Categories.FirstCategory | js/jquery.mosaicPhoto.js:74-82 | the first own key in iteration order; `null` exactly when the catalogue is empty; the result is always an own key |
| Categories.SelectedCategory | js/jquery.mosaicPhoto.js:66-71 | a truthy own key with an object value is kept; anything else resolves to the first key; `null` exactly for an empty catalogue; the result is always an own key |
| Categories.SelectionIdempotent | js/jquery.mosaicPhoto.js:66-71 | selecting the stored category again leaves it unchanged |
| Categories.KeptExactlyWhenUsableOrFirst | js/jquery.mosaicPhoto.js:66-82 | the request survives if and only if it is usable or already the first key |
| Categories.FallbackIgnoresValueKind | js/jquery.mosaicPhoto.js:66-82 | a missing, empty or absent name falls back to the first key even when that key holds no object while a later key holds images |
| Sampler.Pick | js/jquery.mosaicPhoto.js:243 | the spliced index is below the remaining length, and equals the draw when the draw is in range |
| Sampler.Splice | js/jquery.mosaicPhoto.js:243 | `splice(k, 1)` leaves one element fewer, exactly the removed element missing |
| Sampler.Shuffle | js/jquery.mosaicPhoto.js:241-244 | the full shuffle is a permutation of its input |
| Sampler.RandomFromArray | js/jquery.mosaicPhoto.js:237-248 | returns `min(count, length)` elements, the prefix of the shuffle, each input element used at most as often as it occurs; with `count >= length` a permutation of the input; the input is a value and stays untouched |
| Sampler.ShuffleStep | js/jquery.mosaicPhoto.js:242-244 | one loop pass moves the spliced element from the shuffle of the rest to the end of the result |
| Sampler.SpliceStep | js/jquery.mosaicPhoto.js:243 | one loop pass loses no element: the collected and remaining elements together stay the input |
| Sampler.Range | js/jquery.mosaicPhoto.js:122-127 | the list of cell indices has one entry per cell, and a number occurs in it exactly when it is an index of the grid |
| Sampler.CellIndices | js/jquery.mosaicPhoto.js:122-127 | the loop `divs[i] = i` builds exactly the indices 0 to `rows*cols - 1` |
| Sampler.RangeOccurrences | js/jquery.mosaicPhoto.js:122-127 | every index of the grid occurs exactly once in that list, and nothing else occurs |
| Sampler.SampledIndicesInGrid | js/jquery.mosaicPhoto.js:122-129 | the sampled cell indices contain no repeats and all lie inside the grid |
| Sorting.Insert | js/jquery.mosaicPhoto.js:129-131 | inserting into an ascending sequence keeps it ascending and adds exactly that element |
| Sorting.SortAscending | js/jquery.mosaicPhoto.js:129-131 | the numeric sort returns an ascending permutation of its input |
| Sorting.SortedWithoutRepeats | js/jquery.mosaicPhoto.js:129-131 | sorting indices without repeats makes them strictly increasing |
| Capacity.Repaired | js/jquery.mosaicPhoto.js:59-63 | the repair terminates; the result is at most 1; a ratio of at most 1 (negatives included) is unchanged; a ratio above 1 ends in (0.01, 1] |
| Capacity.FloorShrinks | js/jquery.mosaicPhoto.js:60-62 | each pass of the loop lowers the integer part of a ratio above 1, so the loop terminates |
| Capacity.RepairIdempotent | js/jquery.mosaicPhoto.js:59-63 | repairing twice is repairing once |
| Capacity.RepairedIsScaled | js/jquery.mosaicPhoto.js:59-63 | the repaired ratio times 100 per division is the original ratio; there is a division exactly when the ratio exceeds 1 |
| Capacity.Share | js/jquery.mosaicPhoto.js:213 | `floor(cells * ratio)` is non-negative for a non-negative ratio and at most the cell count for a ratio of at most 1 |
| Capacity.ShareMonotone | js/jquery.mosaicPhoto.js:213 | the share grows with the cell count and the ratio |
| Capacity.MaxImagesFor | js/jquery.mosaicPhoto.js:211-216 | the capacity never exceeds the `maxImages` setting, is non-negative for a non-negative ratio, and is at most `rows*cols` for a ratio in [0, 1] |
| Capacity.CapacityMonotone | js/jquery.mosaicPhoto.js:211-216 | the capacity does not decrease when rows, columns, ratio or cap grow |
| Capacity.CapacityIsLargestAdmissible | js/jquery.mosaicPhoto.js:211-216 | for every ratio, a count fits the capacity if and only if it fits both the cap and `rows*cols*ratio` |
| Raster.LinkOf | js/jquery.mosaicPhoto.js:146-149 | the link of a descriptor (no contract: it is the definition; what the emitted cell carries is stated by `Raster.CellAt`) |
| Raster.CellAt | js/jquery.mosaicPhoto.js:146-156 | the cell of a grid index has as background `img[0]` for a pair and the descriptor itself otherwise; it is linked exactly when the descriptor is a pair with a truthy second element, and then to that element; its offsets are non-negative for a non-negative index |
| Raster.Cells | js/jquery.mosaicPhoto.js:146-156 | one cell per index, the t-th cell at row `d / cols` and column `d % cols` of the t-th index, with the t-th image's source and link |
| Raster.Placement | js/jquery.mosaicPhoto.js:134-167 | the scan emits `k - 1` cells for `k` sampled indices, the t-th built from the t-th sorted index and the t-th sampled image |
| Raster.RowAndColumn | js/jquery.mosaicPhoto.js:140-145 | the running position `i*cols + j` has row `i` and column `j` |
| Raster.EmitStep | js/jquery.mosaicPhoto.js:145-161 | emitting at a matched position keeps the emitted cells equal to those of the leading indices and moves to the next index and image |
| Raster.RasterScan | js/jquery.mosaicPhoto.js:133-168 | the nested loops with `shift` emit exactly `Placement` of the sorted indices and sampled images |
| Raster.IndexOrder | js/jquery.mosaicPhoto.js:140-145 | a smaller linear index lies in an earlier row, or earlier in the same row |
| Raster.CellsInOrder | js/jquery.mosaicPhoto.js:152-154 | cells of increasing indices come in strict raster order |
| Raster.PlacementInRasterOrder | js/jquery.mosaicPhoto.js:134-167 | the emitted cells come in strict raster order, so no two share a position |
| Raster.CellInsideGrid | js/jquery.mosaicPhoto.js:152-154 | a cell of an index inside the grid lies entirely inside the grid's pixel area |
| Raster.PlacementInsideGrid | js/jquery.mosaicPhoto.js:134-167 | every emitted cell lies inside the grid's pixel area |
| MosaicPhoto.SampledCells | js/jquery.mosaicPhoto.js:121-131 | `min(count, rows*cols)` sampled cell indices, strictly increasing, all inside the grid |
| MosaicPhoto.SampledImages | js/jquery.mosaicPhoto.js:119 | `min(count, length)` images of the category, none used more often than it occurs |
| MosaicPhoto.Layout | js/jquery.mosaicPhoto.js:119-167 | one successful render emits one cell fewer than the sampled cells; each emitted cell sits at its sampled index with the image sampled with it, inside the grid; the cells are in strict raster order |
| MosaicPhoto.SampleCells | js/jquery.mosaicPhoto.js:121-131 | listing, sampling and sorting the indices computes `SampledCells` |
| MosaicPhoto.Arrange | js/jquery.mosaicPhoto.js:119-168 | sampling images and indices and scanning the grid computes `Layout` |
| MosaicPhoto.Mosaic.constructor | js/jquery.mosaicPhoto.js:12-31 | the closure starts with the given settings and catalogue, no category, zero cell size, no interval and an empty container |
| MosaicPhoto.Mosaic.Settings | js/jquery.mosaicPhoto.js:250-252 | `getOptions()` with no argument: the settings object (no contract) |
| MosaicPhoto.Mosaic.AtMostOneInterval | js/jquery.mosaicPhoto.js:224-234 | at most one interval is ever scheduled, and it is the one `timerId` names |
| MosaicPhoto.Mosaic.RepairRatio | js/jquery.mosaicPhoto.js:59-63 | the loop terminates with the ratio repaired: at most 1, unchanged when already at most 1, above 0.01 when it was above 1 |
| MosaicPhoto.Mosaic.CheckDimensions | js/jquery.mosaicPhoto.js:102-108 | stores the measured cell size |
| MosaicPhoto.Mosaic.NewColsRows | js/jquery.mosaicPhoto.js:84-99 | when not dynamic it reports true and changes nothing; when dynamic it sets `cols = floor(width / imgWidth)` and `rows = floor(height / imgHeight)` and reports true if and only if either changed |
| MosaicPhoto.Mosaic.SetMaxImages | js/jquery.mosaicPhoto.js:211-216 | stores the capacity, at most the cap and, with a repaired ratio, at most `rows*cols` |
| MosaicPhoto.Mosaic.SelectCategory | js/jquery.mosaicPhoto.js:66-71 | stores the selected category, which is `null` exactly for an empty catalogue and otherwise an own key |
| MosaicPhoto.Mosaic.WindowResize | js/jquery.mosaicPhoto.js:180-189 | a resize handler is bound exactly in dynamic mode |
| MosaicPhoto.Mosaic.CheckTimer | js/jquery.mosaicPhoto.js:224-234 | clears the previous interval; with `auto` it starts exactly one new interval of period `timer + fadeTime`, otherwise none is left running |
| MosaicPhoto.Mosaic.CheckOptions | js/jquery.mosaicPhoto.js:39-56 | in order: ratio repaired, cell measured, grid fitted, capacity computed from the repaired ratio and the new grid (so at most `rows*cols`), category validated, resize handler rebound; with `auto` the old interval is cleared and exactly one new interval runs, under a fresh handle, with period `timer + fadeTime`; without `auto` no interval runs and the handle is kept |
| MosaicPhoto.Mosaic.Populate | js/jquery.mosaicPhoto.js:111-178 | with zero capacity it reports false and leaves the container and callbacks untouched; otherwise the container holds exactly `Layout` of the category, `showAllCallback` runs once, and it reports true |
| MosaicPhoto.Mosaic.Initialize | js/jquery.mosaicPhoto.js:33-37 | `checkOptions` then `_populate`: ratio repaired, cell size stored, grid fitted in dynamic mode and kept otherwise, capacity computed and within the grid and the cap, category validated, resize handler bound exactly when dynamic; with `auto` the old interval cleared and exactly one new interval running under a fresh handle, without it none; then with zero capacity the container and `showAllCallback` count are untouched, otherwise the container holds the layout and the callback ran once |
| MosaicPhoto.Mosaic.SetOptions | js/jquery.mosaicPhoto.js:254-259 | the new settings are taken and `checkOptions` re-run: repaired ratio, stored timer and fade time, measured cell size, grid fitted to the container in dynamic mode and taken from the options otherwise, new capacity within the grid, resize handler bound exactly when dynamic, with `opts.auto` the old interval is cleared and exactly one new interval runs under a fresh handle with the new period, without it no interval runs; nothing is re-rendered |
| MosaicPhoto.Mosaic.Assign | js/jquery.mosaicPhoto.js:256 | the merged settings become the settings object |
| MosaicPhoto.Mosaic.OnResize | js/jquery.mosaicPhoto.js:183-186 | re-runs `_newColsRows` (in dynamic mode the grid fits the container, otherwise it is kept and a change is reported), re-renders only when the grid changed, with the `_populate` outcome (untouched container on zero capacity, else layout and one callback), and keeps the capacity of the old grid |
| MosaicPhoto.Mosaic.OnCategoryEvent | js/jquery.mosaicPhoto.js:197-202 | selects the element's category, re-renders it with the `_populate` outcome (untouched container and callback count on zero capacity, else layout and one `showAllCallback`) and runs `listenerCallback` once |
| MosaicPhoto.Mosaic.Destroy | js/jquery.mosaicPhoto.js:271-279 | no interval remains and the container is empty; calling it again is allowed |
| MosaicPhoto.ResizeTwice | js/jquery.mosaicPhoto.js:84-99 | a second resize to the same container size reports no change |
| MosaicPhoto.ThreeImagesFillTwoCells | js/jquery.mosaicPhoto.js:113-167 | three images on a 2 by 2 grid at ratio 1 with cap 10: capacity 4, and exactly 2 cells are filled |
| MosaicPhoto.StaleCapacityIsClamped | js/jquery.mosaicPhoto.js:184-185 | a capacity of 24 kept after shrinking to 2 by 3 still fills 5 cells, all inside the smaller grid |

## Left out

- DOM work is not modelled: the HTML string, `container.html('')`, `appendTo`, `fadeIn` and the CSS probe of `_checkDimensions`. Cells are records, and the measured size is an input.
- `_setupListeners` and the `bind`/`delegate` calls are not modelled: they only attach page events. Their effect is kept as the resize-handler flag and the `OnResize` and `OnCategoryEvent` methods.
- `setInterval` and `clearInterval` are reduced to a set of live handles and a period; no time passes in the model.
- `Math.random` is a stream of draws, so uniformity is not modelled. Any sequence of in-range splice indices is expressible.
- `alert` is modelled only as the `null` category it precedes.
- IEEE double rounding in `ratio /= 100` and `floor(rows*cols*ratio)` is not modelled: the ratio is an exact real.
- Negative `rows`, `cols` and `maxImages` settings are not modelled: they are natural numbers. A negative ratio is kept by the repair, but `Valid` excludes it: it would give a negative capacity and a negative slice count.
- MosaicPhoto.Mosaic.Populate: requires the active category to hold an array of images. For other values `_populate` does the following. For a non-empty string, `.length` is a number, so sampling starts, and `tmp.splice` throws a TypeError because a string has no `splice`. For a plain object or a number, `.length` is `undefined`, `Math.min` gives NaN, and `_populate` returns false without clearing the container. For `null`, reading `.length` throws a TypeError.
- MosaicPhoto.Mosaic.NewColsRows, MosaicPhoto.Mosaic.CheckOptions, MosaicPhoto.Mosaic.Initialize, MosaicPhoto.Mosaic.SetOptions, MosaicPhoto.Mosaic.OnResize: require a positive measured cell size in dynamic mode; a zero size would give an Infinity column count. Outside dynamic mode a zero size is accepted, and every cell is then placed at offset 0.
- MosaicPhoto.Mosaic.Initialize: requires the validated category to hold an array of images, so it excludes the empty catalogue. There `_selectFirstCategory` alerts and leaves the category `null`, and `_populate` then throws a TypeError reading `images[null].length`, so initialisation stops right after the alert.
- Property order for integer-like keys, which for-in visits first, is not modelled: the catalogue is given in iteration order.
- `getOptions` is modelled only as `Mosaic.Settings()`, the whole settings object. `refresh` and the interval callback run `_populate` exactly, so they are `Populate`.
- The `$.extend` merge is not modelled: `SetOptions` takes the merged recognised settings. `activeClass`, the selectors and the callbacks only concern the page.
- The plugin wrapper that caches instances on the element is not modelled, and neither is the settings object it shares between all matched elements.
- The resize handler left bound after `destroy` is recorded (`resizeBound` stays set) but not exercised on a removed container. The category listener, which `destroy` leaves delegated on the document, has no flag of its own.

=== FILE: capacity.dfy ===
/**
 * The fill ratio repair of `_repairRatio` and the capacity `_setMaxImages`
 * computes. Ratios are exact reals: the rounding of JavaScript doubles is not
 * modelled.
 */
module Capacity {
  import opened Common

  /** The ratio after `while (ratio > 1) ratio /= 100`. */
  function Repaired(ratio: real): (r: real)
    ensures r <= 1.0
    ensures ratio <= 1.0 ==> r == ratio
    ensures ratio > 1.0 ==> 0.01 < r
    decreases if ratio > 1.0 then ratio.Floor else 0
  {
    if ratio <= 1.0 then ratio
    else
      FloorShrinks(ratio);
      Repaired(ratio / 100.0)
  }

  /** Dividing a ratio above 1 by 100 lowers its integer part: the loop terminates. */
  lemma FloorShrinks(ratio: real)
    requires ratio > 1.0
    ensures (ratio / 100.0).Floor < ratio.Floor
  {
    var next := ratio / 100.0;
    assert next.Floor as real <= next;
    assert ratio.Floor as real > ratio - 1.0;
    if next >= 1.0 {
      assert next < ratio - 1.0;
    }
  }

  /** Repairing a repaired ratio changes nothing. */
  lemma RepairIdempotent(ratio: real)
    ensures Repaired(Repaired(ratio)) == Repaired(ratio)
  {
  }

  /** `r` multiplied by 100, `n` times. */
  function Scaled(r: real, n: nat): (p: real)
  {
    if n == 0 then r else 100.0 * Scaled(r, n - 1)
  }

  /** How many times the loop divides by 100. */
  function Divisions(ratio: real): (n: nat)
    decreases if ratio > 1.0 then ratio.Floor else 0
  {
    if ratio <= 1.0 then 0
    else
      FloorShrinks(ratio);
      1 + Divisions(ratio / 100.0)
  }

  /** Nothing is lost by the repair: the repaired ratio, multiplied back by 100 as often as
      the loop divided, is the original ratio. */
  lemma {:induction false} RepairedIsScaled(ratio: real)
    ensures Scaled(Repaired(ratio), Divisions(ratio)) == ratio
    ensures ratio > 1.0 <==> Divisions(ratio) > 0
    decreases if ratio > 1.0 then ratio.Floor else 0
  {
    if ratio > 1.0 {
      var next := ratio / 100.0;
      RepairedIsScaled(next);
      assert Repaired(ratio) == Repaired(next) && Divisions(ratio) == Divisions(next) + 1;
    }
  }

  /** Products of non-negative reals grow with their factors. */
  lemma ProductMonotone(a: real, b: real, x: real, y: real)
    requires 0.0 <= a <= b && 0.0 <= x <= y
    ensures 0.0 <= a * x <= b * y
  {
    assert a * x <= b * x;
    assert b * x <= b * y;
  }

  /** `Math.floor(cells * ratio)`, the ratio's share of a cell count rounded down: never
      negative for a non-negative ratio, and no larger than the count for a ratio of at most 1. */
  function Share(cells: nat, ratio: real): (s: int)
    ensures 0.0 <= ratio ==> 0 <= s
    ensures 0.0 <= ratio <= 1.0 ==> s <= cells
  {
    var c := cells as real;
    ShareBounds(c, ratio);
    (c * ratio).Floor
  }

  /** The product behind the share lies between 0 and the cell count for a ratio in [0, 1]. */
  lemma ShareBounds(c: real, ratio: real)
    requires 0.0 <= c
    ensures 0.0 <= ratio ==> 0.0 <= c * ratio
    ensures 0.0 <= ratio <= 1.0 ==> c * ratio <= c
  {
    if 0.0 <= ratio {
      ProductMonotone(0.0, c, 0.0, ratio);
      if ratio <= 1.0 {
        ProductMonotone(c, c, ratio, 1.0);
      }
    }
  }

  /** The share grows with the cell count and the ratio. */
  lemma ShareMonotone(cells: nat, ratio: real, cells': nat, ratio': real)
    requires cells <= cells' && 0.0 <= ratio <= ratio'
    ensures Share(cells, ratio) <= Share(cells', ratio')
  {
    ProductMonotone(cells as real, cells' as real, ratio, ratio');
  }

  /** `Math.min(Math.floor(rows * cols * ratio), maxImages)`. */
  function MaxImagesFor(rows: nat, cols: nat, ratio: real, maxImages: nat): (m: int)
    ensures m <= maxImages
    ensures 0.0 <= ratio ==> 0 <= m
    ensures 0.0 <= ratio <= 1.0 ==> m <= rows * cols
  {
    Min(Share(rows * cols, ratio), maxImages)
  }

  /** A grid with at least as many rows and columns has at least as many cells. */
  lemma GridMonotone(rows: nat, cols: nat, rows': nat, cols': nat)
    requires rows <= rows' && cols <= cols'
    ensures rows * cols <= rows' * cols'
  {
    assert rows * cols <= rows' * cols;
    assert rows' * cols <= rows' * cols';
  }

  /** The capacity never shrinks when the grid, the ratio or the cap grows. */
  lemma CapacityMonotone(rows: nat, cols: nat, ratio: real, maxImages: nat,
                         rows': nat, cols': nat, ratio': real, maxImages': nat)
    requires rows <= rows' && cols <= cols' && 0.0 <= ratio <= ratio' && maxImages <= maxImages'
    ensures MaxImagesFor(rows, cols, ratio, maxImages) <= MaxImagesFor(rows', cols', ratio', maxImages')
  {
    GridMonotone(rows, cols, rows', cols');
    ShareMonotone(rows * cols, ratio, rows' * cols', ratio');
  }

  /** The capacity is the largest count within both the ratio share of the grid and the cap. */
  lemma CapacityIsLargestAdmissible(rows: nat, cols: nat, ratio: real, maxImages: nat, k: int)
    ensures k <= MaxImagesFor(rows, cols, ratio, maxImages)
        <==> k <= maxImages && k as real <= (rows * cols) as real * ratio
  {
  }
}

=== FILE: categories.dfy ===
/**
 * The image catalogue (the `images` setting) and the choice of the active
 * category made by `_selectCategory` and `_selectFirstCategory`.
 */
module Categories {
  import opened Common

  /** An image: a bare source reference, or a pair [source, link]. An empty link
      stands for a second element that is missing or falsy. */
  datatype ImageDescriptor =
    | Plain(src: string)
    | Pair(src: string, link: string)

  /** What a category name maps to. Only an array of descriptors can be rendered;
      `OtherObject` covers every other value whose `typeof` is 'object' (a plain
      object, `null`), `NonObject` every value whose `typeof` is not 'object'. */
  datatype CategoryValue =
    | ImageList(items: seq<ImageDescriptor>)
    | OtherObject
    | NonObject
  {
    /** `typeof value === 'object'` */
    predicate IsObject()
    {
      !NonObject?
    }
  }

  /** One own enumerable property of the catalogue object. */
  datatype Entry = Entry(name: string, value: CategoryValue)

  /** The catalogue's own properties, in for-in iteration order. */
  type Catalogue = seq<Entry>

  /** Property names of an object are unique. */
  predicate WellFormed(c: Catalogue)
  {
    forall i, j :: 0 <= i < j < |c| ==> c[i].name != c[j].name
  }

  /** `images[name]` when `images.hasOwnProperty(name)`, and `None` when it is not an own key. */
  function Get(c: Catalogue, name: string): (r: Option<CategoryValue>)
    ensures r.None? <==> forall i :: 0 <= i < |c| ==> c[i].name != name
    ensures WellFormed(c) ==> forall i :: 0 <= i < |c| && c[i].name == name ==> r == Some(c[i].value)
  {
    if |c| == 0 then None
    else if c[0].name == name then Some(c[0].value)
    else
      var r := Get(c[1..], name);
      assert forall i :: 1 <= i < |c| ==> c[i] == c[1..][i - 1];
      r
  }

  /** A name `_selectCategory` keeps as it is: truthy, an own key, and holding an object. */
  predicate Usable(name: Option<string>, c: Catalogue)
  {
    && name.Some?
    && name.value != ""
    && Get(c, name.value).Some?
    && Get(c, name.value).value.IsObject()
  }

  /** `_selectFirstCategory`: the first own key in iteration order, or `null`
      (after an alert) when the catalogue has none. */
  function FirstCategory(c: Catalogue): (r: Option<string>)
    ensures r.None? <==> c == []
    ensures r.Some? ==> Get(c, r.value).Some?
  {
    if c == [] then None else Some(c[0].name)
  }

  /** The category `_selectCategory(name)` stores in `imgCat`. */
  function SelectedCategory(name: Option<string>, c: Catalogue): (r: Option<string>)
    ensures Usable(name, c) ==> r == name
    ensures !Usable(name, c) ==> r == FirstCategory(c)
    ensures r.None? <==> c == []
    ensures r.Some? ==> Get(c, r.value).Some?
  {
    if Usable(name, c) then name else FirstCategory(c)
  }

  /** The category actually holds a list of images (what `_populate` needs). */
  predicate HoldsImages(c: Catalogue, cat: Option<string>)
  {
    cat.Some? && Get(c, cat.value).Some? && Get(c, cat.value).value.ImageList?
  }

  /** The images of a category that holds a list. */
  function ImagesOf(c: Catalogue, cat: Option<string>): (items: seq<ImageDescriptor>)
    requires HoldsImages(c, cat)
  {
    Get(c, cat.value).value.items
  }

  /** Selecting again what was selected changes nothing: the stored category is a fixed point. */
  lemma SelectionIdempotent(name: Option<string>, c: Catalogue)
    ensures SelectedCategory(SelectedCategory(name, c), c) == SelectedCategory(name, c)
  {
    var r := SelectedCategory(name, c);
    if !Usable(name, c) && r.Some? && !Usable(r, c) {
      assert SelectedCategory(r, c) == FirstCategory(c) == r;
    }
  }

  /** The stored category equals the requested name exactly when the name is usable
      or already is the first key; every other request is redirected. */
  lemma KeptExactlyWhenUsableOrFirst(name: Option<string>, c: Catalogue)
    ensures SelectedCategory(name, c) == name <==> Usable(name, c) || name == FirstCategory(c)
  {
  }

  /** The fallback takes the first key even when its value is not a list of images,
      and even when a later key would have been usable. */
  lemma FallbackIgnoresValueKind()
    ensures var c := [Entry("a", NonObject), Entry("b", ImageList([Plain("x.jpg")]))];
      && SelectedCategory(Some("missing"), c) == Some("a")
      && SelectedCategory(None, c) == Some("a")
      && SelectedCategory(Some(""), c) == Some("a")
      && !HoldsImages(c, SelectedCategory(Some("a"), c))
  {
    var c := [Entry("a", NonObject), Entry("b", ImageList([Plain("x.jpg")]))];
    assert Get(c, "missing").None?;
    assert Get(c, "a") == Some(NonObject);
  }
}

=== FILE: common.dfy ===
/** Small vocabulary shared by the modules of the mosaic model. */
module Common {

  /** A value that may be missing: JavaScript's `undefined` or `null`. */
  datatype Option<+T> = None | Some(value: T)

  /** `Math.min` on two integers. */
  function Min(a: int, b: int): (m: int)
  {
    if a <= b then a else b
  }

  /** The value `Array.prototype.shift` returns: the first element, or `undefined` when empty. */
  function Head<T>(s: seq<T>): (h: Option<T>)
  {
    if |s| > 0 then Some(s[0]) else None
  }

  /** What `Array.prototype.shift` leaves behind. */
  function Tail<T>(s: seq<T>): (t: seq<T>)
    ensures |t| == if s == [] then 0 else |s| - 1
    ensures forall i :: 0 <= i < |t| ==> t[i] == s[i + 1]
  {
    if |s| > 0 then s[1..] else []
  }

  /** `shift` splits an array: it returns `undefined` exactly for an empty array, and
      otherwise the returned element, put back in front of what is left, restores the array. */
  lemma ShiftSplits<T>(s: seq<T>)
    ensures Head(s).None? <==> s == []
    ensures Head(s).Some? ==> [Head(s).value] + Tail(s) == s
  {
  }
}

=== FILE: mosaic.dfy ===
/**
 * The `mosaicPhoto` closure: the settings it mutates, the capacity, the active
 * category, the measured cell size, the auto-refresh interval and the cells
 * currently shown, with one method per closure function that updates them.
 */
module MosaicPhoto {
  import opened Common
  import opened Categories
  import opened Sampler
  import opened Sorting
  import opened Capacity
  import opened Raster

  /** The recognised settings the model keeps; callbacks, selectors and the
      active class only concern the page. */
  datatype Options = Options(
    rows: nat, cols: nat, ratio: real, maxImages: nat,
    dynamic: bool, fadeTime: int, auto: bool, timer: int)

  /** The cell indices `_populate` samples from a grid of `total` cells, after sorting:
      `count` of them (at most `total`), strictly increasing, all inside the grid. */
  function SampledCells(total: nat, count: nat, draws: seq<nat>): (d: seq<int>)
    ensures |d| == Min(count, total)
    ensures StrictlyAscending(d)
    ensures forall t :: 0 <= t < |d| ==> 0 <= d[t] < total
  {
    var s := Shuffle(Range(total), draws)[..Min(count, total)];
    SampledIndicesInGrid(total, count, draws, s);
    var d := SortAscending(s);
    assert forall x :: multiset(d)[x] <= 1;
    SortedWithoutRepeats(d);
    forall t | 0 <= t < |d| ensures 0 <= d[t] < total {
      assert d[t] in multiset(d);
      var u :| 0 <= u < |s| && s[u] == d[t];
    }
    d
  }

  /** The images `_populate` samples from the active category. */
  function SampledImages(list: seq<ImageDescriptor>, count: nat, draws: seq<nat>): (r: seq<ImageDescriptor>)
    ensures |r| == Min(count, |list|)
    ensures multiset(r) <= multiset(list)
  {
    PrefixSubMultiset(Shuffle(list, draws), Min(count, |list|));
    Shuffle(list, draws)[..Min(count, |list|)]
  }

  /** The cells one successful `_populate` puts in the container, for `count` images
      of `list` on a `rows` by `cols` grid of `width` by `height` cells: one cell fewer
      than the sampled cells, each placed at its sampled index and carrying the image
      sampled with it, all inside the grid, in strict raster order (so no two overlap). */
  function Layout(list: seq<ImageDescriptor>, count: nat, rows: nat, cols: nat, width: nat, height: nat,
                  imgDraws: seq<nat>, cellDraws: seq<nat>): (r: seq<Cell>)
    requires count <= |list|
    ensures var k := Min(count, rows * cols); |r| == (if k == 0 then 0 else k - 1)
    ensures forall t :: 0 <= t < |r| ==>
      && cols > 0
      && r[t] == CellAt(SampledCells(rows * cols, count, cellDraws)[t], SampledImages(list, count, imgDraws)[t], cols, width, height)
      && 0 <= r[t].top && r[t].top + height <= rows * height
      && 0 <= r[t].left && r[t].left + width <= cols * width
    ensures width > 0 && height > 0 ==> forall s, t :: 0 <= s < t < |r| ==> Before(r[s], r[t])
  {
    var divs := SampledCells(rows * cols, count, cellDraws);
    var imgs := SampledImages(list, count, imgDraws);
    assert cols == 0 ==> rows * cols == 0;
    PlacementInsideGrid(divs, imgs, rows, cols, width, height);
    if width > 0 && height > 0 then
      PlacementInRasterOrder(divs, imgs, cols, width, height);
      Placement(divs, imgs, cols, width, height)
    else
      Placement(divs, imgs, cols, width, height)
  }

  /** A layout is the placement of the sampled cell indices and images. */
  lemma LayoutOfSamples(list: seq<ImageDescriptor>, count: nat, rows: nat, cols: nat, width: nat, height: nat,
                        imgDraws: seq<nat>, cellDraws: seq<nat>, divs: seq<int>, imgs: seq<ImageDescriptor>)
    requires count <= |list|
    requires divs == SampledCells(rows * cols, count, cellDraws)
    requires imgs == Shuffle(list, imgDraws)[..Min(count, |list|)]
    ensures imgs == SampledImages(list, count, imgDraws)
    ensures cols > 0 || |divs| <= 1
    ensures |divs| <= |imgs|
    ensures Layout(list, count, rows, cols, width, height, imgDraws, cellDraws) == Placement(divs, imgs, cols, width, height)
  {
    assert cols == 0 ==> rows * cols == 0;
  }

  /** The cell indices `_populate` fills: `divs[i] = i` for every cell, sampled, then sorted. */
  method SampleCells(total: nat, count: nat, draws: seq<nat>) returns (divs: seq<int>)
    ensures divs == SampledCells(total, count, draws)
  {
    divs := CellIndices(total);
    divs := RandomFromArray(divs, count, draws);
    divs := SortAscending(divs);
  }

  /** The part of `_populate` past its early return: samples `count` images and `count`
      cell indices, sorts the indices and scans the grid. */
  method Arrange(list: seq<ImageDescriptor>, count: nat, rows: nat, cols: nat, width: nat, height: nat,
                 imgDraws: seq<nat>, cellDraws: seq<nat>) returns (cells: seq<Cell>)
    requires 0 < count <= |list|
    ensures cells == Layout(list, count, rows, cols, width, height, imgDraws, cellDraws)
  {
    var imgs := RandomFromArray(list, count, imgDraws);
    var divs := SampleCells(rows * cols, count, cellDraws);
    LayoutOfSamples(list, count, rows, cols, width, height, imgDraws, cellDraws, divs, imgs);
    cells := RasterScan(rows, cols, width, height, divs, imgs);
  }

  class Mosaic {
    // the settings object, as far as the core reads and writes it
    var rows: nat
    var cols: nat
    var ratio: real
    var settingsMaxImages: nat
    var dynamic: bool
    var fadeTime: int
    var auto: bool
    var timer: int
    /** The catalogue captured once from the settings (`images = settings.images`). */
    const images: Catalogue
    // closure variables
    var maxImages: nat
    var imgCat: Option<string>
    var imgWidth: nat
    var imgHeight: nat
    /** The last handle `setInterval` returned; clearing the interval leaves it set. */
    var timerId: Option<nat>
    /** The intervals currently scheduled, by handle. */
    var liveIntervals: set<nat>
    /** The handle the next `setInterval` returns (handles are positive). */
    var nextHandle: nat
    /** The period of the interval started last. */
    var timerPeriod: int
    /** Whether a resize handler is bound on the window. */
    var resizeBound: bool
    // the page
    /** The cells currently in the container. */
    var shown: seq<Cell>
    /** How often `showAllCallback` ran. */
    var completions: nat
    /** How often `listenerCallback` ran. */
    var switches: nat

    ghost predicate Valid()
      reads this`ratio, this`nextHandle, this`timerId, this`liveIntervals
    {
      && 0.0 <= ratio
      && WellFormed(images)
      && 0 < nextHandle
      && (timerId.Some? ==> 0 < timerId.value < nextHandle)
      && liveIntervals <= (if timerId.Some? then {timerId.value} else {})
    }

    /** The settings as the `settings` object holds them. */
    function Settings(): (o: Options)
      reads this
    {
      Options(rows, cols, ratio, settingsMaxImages, dynamic, fadeTime, auto, timer)
    }

    /** The closure as it stands before `Initialize` runs. */
    constructor (opts: Options, catalogue: Catalogue)
      requires 0.0 <= opts.ratio && WellFormed(catalogue)
      ensures Valid()
      ensures Settings() == opts && images == catalogue
      ensures imgCat == None && maxImages == 0 && imgWidth == 0 && imgHeight == 0
      ensures timerId == None && liveIntervals == {} && !resizeBound
      ensures shown == [] && completions == 0 && switches == 0
    {
      rows, cols, ratio, settingsMaxImages := opts.rows, opts.cols, opts.ratio, opts.maxImages;
      dynamic, fadeTime, auto, timer := opts.dynamic, opts.fadeTime, opts.auto, opts.timer;
      images := catalogue;
      maxImages, imgCat, imgWidth, imgHeight := 0, None, 0, 0;
      timerId, liveIntervals, nextHandle, timerPeriod := None, {}, 1, 0;
      resizeBound := false;
      shown, completions, switches := [], 0, 0;
    }

    /** There is never more than one interval scheduled. */
    lemma AtMostOneInterval()
      requires Valid()
      ensures |liveIntervals| <= 1
      ensures liveIntervals != {} ==> timerId.Some? && liveIntervals == {timerId.value}
    {
      if timerId.Some? {
        assert liveIntervals == {} || liveIntervals == {timerId.value};
      }
    }

    /** `_repairRatio`: divides the ratio by 100 until it is at most 1. */
    method RepairRatio()
      requires Valid()
      modifies this`ratio
      ensures Valid()
      ensures ratio == Repaired(old(ratio))
      ensures ratio <= 1.0
      ensures old(ratio) <= 1.0 ==> ratio == old(ratio)
      ensures old(ratio) > 1.0 ==> 0.01 < ratio
    {
      while ratio > 1.0
        invariant 0.0 <= ratio
        invariant Repaired(ratio) == Repaired(old(ratio))
        decreases ratio.Floor
      {
        FloorShrinks(ratio);
        ratio := ratio / 100.0;
      }
    }

    /** `_checkDimensions`: records the measured outer size of one cell. */
    method CheckDimensions(cellWidth: nat, cellHeight: nat)
      modifies this`imgWidth, this`imgHeight
      ensures imgWidth == cellWidth && imgHeight == cellHeight
    {
      imgWidth, imgHeight := cellWidth, cellHeight;
    }

    /** `_newColsRows`: in dynamic mode, fits the grid to a `width` by `height` container
        and reports whether its shape changed; otherwise keeps the grid and reports true. */
    method NewColsRows(width: nat, height: nat) returns (changed: bool)
      requires dynamic ==> imgWidth > 0 && imgHeight > 0
      modifies this`rows, this`cols
      ensures !dynamic ==> changed && rows == old(rows) && cols == old(cols)
      ensures dynamic ==> cols == width / imgWidth && rows == height / imgHeight
      ensures dynamic ==> (changed <==> rows != old(rows) || cols != old(cols))
    {
      if !dynamic {
        return true;
      }
      var newCols, newRows := width / imgWidth, height / imgHeight;
      if newRows != rows || newCols != cols {
        rows, cols := newRows, newCols;
        changed := true;
      } else {
        changed := false;
      }
    }

    /** `_setMaxImages`: the capacity is the ratio's share of the grid, capped by the setting. */
    method SetMaxImages()
      requires Valid()
      modifies this`maxImages
      ensures maxImages == MaxImagesFor(rows, cols, ratio, settingsMaxImages)
      ensures maxImages <= settingsMaxImages
      ensures ratio <= 1.0 ==> maxImages <= rows * cols
    {
      maxImages := MaxImagesFor(rows, cols, ratio, settingsMaxImages);
    }

    /** `_selectCategory`, and the public `selectCategory`, which does not re-render. */
    method SelectCategory(name: Option<string>)
      modifies this`imgCat
      ensures imgCat == SelectedCategory(name, images)
      ensures imgCat.None? <==> images == []
      ensures imgCat.Some? ==> Get(images, imgCat.value).Some?
    {
      imgCat := SelectedCategory(name, images);
    }

    /** `_windowResize`: unbinds the previous resize handler and binds one in dynamic mode. */
    method WindowResize()
      modifies this`resizeBound
      ensures resizeBound == dynamic
    {
      resizeBound := dynamic;
    }

    /** `_checkTimer`: clears the interval last started, then starts one with period
        `timer + fadeTime` when `auto` is on. */
    method CheckTimer()
      requires Valid()
      modifies this`timerId, this`liveIntervals, this`nextHandle, this`timerPeriod
      ensures Valid()
      ensures auto ==> && timerId == Some(old(nextHandle)) && liveIntervals == {old(nextHandle)}
                       && timerPeriod == timer + fadeTime && nextHandle == old(nextHandle) + 1
      ensures !auto ==> && liveIntervals == {} && timerId == old(timerId)
                        && nextHandle == old(nextHandle) && timerPeriod == old(timerPeriod)
    {
      if timerId.Some? {
        liveIntervals := liveIntervals - {timerId.value};
      }
      if auto {
        timerId := Some(nextHandle);
        liveIntervals := liveIntervals + {nextHandle};
        timerPeriod := timer + fadeTime;
        nextHandle := nextHandle + 1;
      }
    }

    /** `checkOptions`: repairs the ratio before the capacity uses it, measures the cell and
        sizes the grid before the capacity is computed from it, then validates the category,
        rebinds the resize handler and restarts the timer. */
    method CheckOptions(cellWidth: nat, cellHeight: nat, width: nat, height: nat)
      requires Valid() && (dynamic ==> cellWidth > 0 && cellHeight > 0)
      modifies this`ratio, this`imgWidth, this`imgHeight, this`rows, this`cols, this`maxImages,
               this`imgCat, this`resizeBound, this`timerId, this`liveIntervals, this`nextHandle, this`timerPeriod
      ensures Valid()
      ensures ratio == Repaired(old(ratio))
      ensures imgWidth == cellWidth && imgHeight == cellHeight
      ensures dynamic ==> cols == width / cellWidth && rows == height / cellHeight
      ensures !dynamic ==> rows == old(rows) && cols == old(cols)
      ensures maxImages == MaxImagesFor(rows, cols, ratio, settingsMaxImages)
      ensures maxImages <= rows * cols && maxImages <= settingsMaxImages
      ensures imgCat == SelectedCategory(old(imgCat), images)
      ensures resizeBound == dynamic
      ensures auto ==> timerId.Some? && liveIntervals == {timerId.value}
      ensures auto ==> timerId == Some(old(nextHandle)) && nextHandle == old(nextHandle) + 1
      ensures !auto ==> liveIntervals == {} && timerId == old(timerId)
      ensures auto ==> timerPeriod == timer + fadeTime
    {
      RepairRatio();
      CheckDimensions(cellWidth, cellHeight);
      var _ := NewColsRows(width, height);
      SetMaxImages();
      SelectCategory(imgCat);
      WindowResize();
      // _setupListeners only binds page events
      CheckTimer();
    }

    /** What a call of `_populate` that reported `filled` leaves behind, starting from the
        container `shown0` and the callback count `completions0`: with no capacity for the
        active category nothing changed; otherwise the container holds a fresh layout of
        the category on the current grid and `showAllCallback` ran once. */
    ghost predicate Rendered(filled: bool, shown0: seq<Cell>, completions0: nat, imgDraws: seq<nat>, cellDraws: seq<nat>)
      reads this`maxImages, this`imgCat, this`rows, this`cols, this`imgWidth, this`imgHeight,
            this`shown, this`completions
    {
      && HoldsImages(images, imgCat)
      && var list := ImagesOf(images, imgCat);
        var count := Min(maxImages, |list|);
        && filled == (count > 0)
        && (!filled ==> shown == shown0 && completions == completions0)
        && (filled ==> shown == Layout(list, count, rows, cols, imgWidth, imgHeight, imgDraws, cellDraws)
                       && completions == completions0 + 1)
    }

    /** `_populate`: with no capacity left for the active category it changes nothing and
        reports false; otherwise it replaces the container's cells with a fresh layout,
        runs `showAllCallback` and reports true. The refresh method and the interval
        callback run exactly this. */
    method Populate(imgDraws: seq<nat>, cellDraws: seq<nat>) returns (filled: bool)
      requires HoldsImages(images, imgCat)
      modifies this`shown, this`completions
      ensures Rendered(filled, old(shown), old(completions), imgDraws, cellDraws)
    {
      var list := ImagesOf(images, imgCat);
      var count: nat := Min(maxImages, |list|);
      if count == 0 {
        return false;
      }
      var cells := Arrange(list, count, rows, cols, imgWidth, imgHeight, imgDraws, cellDraws);
      shown := cells;
      completions := completions + 1;
      filled := true;
    }

    /** `Initialize`: `checkOptions` followed by `_populate`. */
    method Initialize(cellWidth: nat, cellHeight: nat, width: nat, height: nat,
                      imgDraws: seq<nat>, cellDraws: seq<nat>) returns (filled: bool)
      requires Valid() && (dynamic ==> cellWidth > 0 && cellHeight > 0)
      requires HoldsImages(images, SelectedCategory(imgCat, images))
      modifies this`ratio, this`imgWidth, this`imgHeight, this`rows, this`cols, this`maxImages,
               this`imgCat, this`resizeBound, this`timerId, this`liveIntervals, this`nextHandle, this`timerPeriod,
               this`shown, this`completions
      ensures Valid()
      ensures ratio == Repaired(old(ratio))
      ensures imgWidth == cellWidth && imgHeight == cellHeight
      ensures dynamic ==> cols == width / cellWidth && rows == height / cellHeight
      ensures !dynamic ==> rows == old(rows) && cols == old(cols)
      ensures maxImages == MaxImagesFor(rows, cols, ratio, settingsMaxImages)
      ensures maxImages <= rows * cols && maxImages <= settingsMaxImages
      ensures imgCat == SelectedCategory(old(imgCat), images)
      ensures resizeBound == dynamic
      ensures auto ==> timerId.Some? && liveIntervals == {timerId.value}
      ensures auto ==> timerId == Some(old(nextHandle)) && nextHandle == old(nextHandle) + 1
      ensures !auto ==> liveIntervals == {} && timerId == old(timerId)
      ensures auto ==> timerPeriod == timer + fadeTime
      ensures Rendered(filled, old(shown), old(completions), imgDraws, cellDraws)
    {
      CheckOptions(cellWidth, cellHeight, width, height);
      assert HoldsImages(images, imgCat);
      filled := Populate(imgDraws, cellDraws);
    }

    /** `setOptions`: takes the merged settings and re-runs `checkOptions` without
        re-rendering. The catalogue stays the one captured at construction. */
    method SetOptions(opts: Options, cellWidth: nat, cellHeight: nat, width: nat, height: nat)
      requires Valid() && 0.0 <= opts.ratio && (opts.dynamic ==> cellWidth > 0 && cellHeight > 0)
      modifies this`rows, this`cols, this`ratio, this`settingsMaxImages, this`dynamic, this`fadeTime,
               this`auto, this`timer, this`imgWidth, this`imgHeight, this`maxImages, this`imgCat,
               this`resizeBound, this`timerId, this`liveIntervals, this`nextHandle, this`timerPeriod
      ensures Valid()
      ensures ratio == Repaired(opts.ratio) && settingsMaxImages == opts.maxImages
      ensures dynamic == opts.dynamic && auto == opts.auto
      ensures timer == opts.timer && fadeTime == opts.fadeTime
      ensures imgWidth == cellWidth && imgHeight == cellHeight
      ensures opts.dynamic ==> cols == width / cellWidth && rows == height / cellHeight
      ensures !opts.dynamic ==> rows == opts.rows && cols == opts.cols
      ensures resizeBound == opts.dynamic
      ensures maxImages == MaxImagesFor(rows, cols, ratio, settingsMaxImages)
      ensures maxImages <= rows * cols
      ensures imgCat == SelectedCategory(old(imgCat), images)
      ensures opts.auto ==> timerId.Some? && liveIntervals == {timerId.value}
      ensures opts.auto ==> timerId == Some(old(nextHandle)) && nextHandle == old(nextHandle) + 1
      ensures !opts.auto ==> liveIntervals == {} && timerId == old(timerId)
      ensures opts.auto ==> timerPeriod == opts.timer + opts.fadeTime
    {
      Assign(opts);
      CheckOptions(cellWidth, cellHeight, width, height);
    }

    /** `$.extend(settings, options)` for a complete set of recognised options. */
    method Assign(opts: Options)
      requires Valid() && 0.0 <= opts.ratio
      modifies this`rows, this`cols, this`ratio, this`settingsMaxImages, this`dynamic, this`fadeTime,
               this`auto, this`timer
      ensures Valid()
      ensures Settings() == opts
    {
      rows, cols, ratio, settingsMaxImages := opts.rows, opts.cols, opts.ratio, opts.maxImages;
      dynamic, fadeTime, auto, timer := opts.dynamic, opts.fadeTime, opts.auto, opts.timer;
    }

    /** The window resize handler: re-runs `_newColsRows` and re-renders only when the grid
        changed. It does not call `_setMaxImages`, so the capacity computed for the old grid
        is kept, and the sampler's clamp to the grid size absorbs it. */
    method OnResize(width: nat, height: nat, imgDraws: seq<nat>, cellDraws: seq<nat>)
      returns (changed: bool, filled: bool)
      requires resizeBound && imgWidth > 0 && imgHeight > 0
      requires HoldsImages(images, imgCat)
      modifies this`rows, this`cols, this`shown, this`completions
      ensures maxImages == old(maxImages)
      ensures dynamic ==> cols == width / imgWidth && rows == height / imgHeight
      ensures dynamic ==> (changed <==> rows != old(rows) || cols != old(cols))
      ensures !dynamic ==> changed && rows == old(rows) && cols == old(cols)
      ensures !changed ==> !filled && shown == old(shown) && completions == old(completions)
      ensures changed ==> Rendered(filled, old(shown), old(completions), imgDraws, cellDraws)
    {
      changed := NewColsRows(width, height);
      filled := false;
      if changed {
        filled := Populate(imgDraws, cellDraws);
      }
    }

    /** The delegated listener handler: selects the category named by the element's
        `rel` attribute, re-renders and runs `listenerCallback`. */
    method OnCategoryEvent(rel: Option<string>, imgDraws: seq<nat>, cellDraws: seq<nat>) returns (filled: bool)
      requires HoldsImages(images, SelectedCategory(rel, images))
      modifies this`imgCat, this`shown, this`completions, this`switches
      ensures imgCat == SelectedCategory(rel, images)
      ensures switches == old(switches) + 1
      ensures Rendered(filled, old(shown), old(completions), imgDraws, cellDraws)
    {
      SelectCategory(rel);
      filled := Populate(imgDraws, cellDraws);
      switches := switches + 1;
    }

    /** `destroy`: clears the interval and removes the container. Its `undelegate` call
        is made on the window with the bare namespace, so it removes neither the resize
        handler bound on the window nor the category listener delegated on the document. */
    method Destroy()
      requires Valid()
      modifies this`liveIntervals, this`shown
      ensures Valid()
      ensures liveIntervals == {} && shown == []
    {
      if timerId.Some? {
        liveIntervals := liveIntervals - {timerId.value};
      }
      shown := [];
    }
  }

  /** Two resize events with the same container size: the second finds nothing to change. */
  method ResizeTwice(m: Mosaic, width: nat, height: nat) returns (first: bool, second: bool)
    requires m.dynamic && m.imgWidth > 0 && m.imgHeight > 0
    modifies m`rows, m`cols
    ensures !second
    ensures first <==> m.rows != old(m.rows) || m.cols != old(m.cols)
  {
    first := m.NewColsRows(width, height);
    second := m.NewColsRows(width, height);
  }

  /** Three images, a 2 by 2 grid, ratio 1 and a cap of 10: the capacity is 4, clamped to
      the 3 images, yet only 2 cells are filled, whatever the draws. */
  lemma ThreeImagesFillTwoCells(list: seq<ImageDescriptor>, width: nat, height: nat,
                                imgDraws: seq<nat>, cellDraws: seq<nat>)
    requires |list| == 3 && width > 0 && height > 0
    ensures MaxImagesFor(2, 2, 1.0, 10) == 4
    ensures |Layout(list, Min(4, 3), 2, 2, width, height, imgDraws, cellDraws)| == 2
  {
  }

  /** A capacity of 24 computed for a 4 by 6 grid, kept after a resize to 2 by 3: the
      layout still fills 5 of the 6 cells, all inside the smaller grid. */
  lemma StaleCapacityIsClamped(list: seq<ImageDescriptor>, width: nat, height: nat,
                               imgDraws: seq<nat>, cellDraws: seq<nat>)
    requires |list| >= 24 && width > 0 && height > 0
    ensures MaxImagesFor(4, 6, 1.0, 24) == 24 > 2 * 3
    ensures var r := Layout(list, 24, 2, 3, width, height, imgDraws, cellDraws);
      && |r| == 5
      && forall t :: 0 <= t < |r| ==> r[t].top + height <= 2 * height && r[t].left + width <= 3 * width
  {
  }
}

=== FILE: raster.dfy ===
/**
 * The raster scan of `_populate`: walk the grid row by row, and whenever the
 * running position reaches the next sampled cell index, emit a positioned cell
 * carrying the next sampled image. The HTML markup is represented by the cell
 * records it would contain.
 */
module Raster {
  import opened Common
  import opened Categories
  import opened Sorting

  /** One emitted cell: its pixel offsets, its background image and its optional link. */
  datatype Cell = Cell(top: int, left: int, src: string, link: Option<string>)

  /** A link is generated only for a pair whose second element is truthy. */
  function LinkOf(img: ImageDescriptor): (link: Option<string>)
  {
    match img
    case Plain(_) => None
    case Pair(_, l) => if l != "" then Some(l) else None
  }

  /** The cell for linear grid index `index`: row `index / cols`, column `index % cols`.
      Its background is `img[0]` for a pair and the descriptor itself otherwise, and it is
      linked exactly when the descriptor is a pair with a non-empty second element. */
  function CellAt(index: int, img: ImageDescriptor, cols: nat, width: nat, height: nat): (c: Cell)
    requires cols > 0
    ensures c.src == img.src
    ensures c.link.Some? <==> img.Pair? && img.link != ""
    ensures c.link.Some? ==> c.link.value == img.link
    ensures 0 <= index ==> 0 <= c.top && 0 <= c.left
  {
    Cell((index / cols) * height, (index % cols) * width, img.src, LinkOf(img))
  }

  /** The cells for the indices `divs`, paired in order with the images `imgs`. */
  function Cells(divs: seq<int>, imgs: seq<ImageDescriptor>, cols: nat, width: nat, height: nat): (r: seq<Cell>)
    requires cols > 0 && |divs| <= |imgs|
    ensures |r| == |divs|
    ensures forall t :: 0 <= t < |divs| ==> r[t] == CellAt(divs[t], imgs[t], cols, width, height)
  {
    if divs == [] then []
    else [CellAt(divs[0], imgs[0], cols, width, height)] + Cells(divs[1..], imgs[1..], cols, width, height)
  }

  /** What the scan emits for the sorted sampled indices `divs` and the sampled images
      `imgs`: the first `|divs| - 1` indices, paired in order with the first images.
      The last sampled index is never reached, because the scan shifts it out before
      testing whether `divs` is empty. */
  function Placement(divs: seq<int>, imgs: seq<ImageDescriptor>, cols: nat, width: nat, height: nat): (r: seq<Cell>)
    requires cols > 0 || |divs| <= 1
    requires |divs| <= |imgs|
    ensures |r| == if divs == [] then 0 else |divs| - 1
    ensures forall t :: 0 <= t < |r| ==> cols > 0 && r[t] == CellAt(divs[t], imgs[t], cols, width, height)
  {
    if |divs| <= 1 then [] else Cells(divs[..|divs| - 1], imgs, cols, width, height)
  }

  /** Multiplying by a positive integer does not shrink a natural number. */
  lemma MultiplyAtLeast(a: int, c: nat)
    requires a >= 1
    ensures a * c >= c
  {
  }

  /** Linear index `i * cols + j` with `j < cols` lies in row `i` and column `j`. */
  lemma RowAndColumn(i: nat, j: nat, cols: nat)
    requires j < cols
    ensures (i * cols + j) / cols == i && (i * cols + j) % cols == j
  {
    var n := i * cols + j;
    var q, r := n / cols, n % cols;
    assert n == q * cols + r && 0 <= r < cols;
    assert (i - q) * cols == r - j;
    if i - q >= 1 {
      MultiplyAtLeast(i - q, cols);
      assert false;
    } else if q - i >= 1 {
      MultiplyAtLeast(q - i, cols);
      assert false;
    }
  }

  /** The cells emitted so far are the cells of the first sampled indices and images. */
  ghost predicate Scanned(cells: seq<Cell>, D: seq<int>, I: seq<ImageDescriptor>, cols: nat, width: nat, height: nat)
  {
    && |cells| <= |D|
    && |cells| <= |I|
    && (|cells| > 0 ==> cols > 0)
    && forall t :: 0 <= t < |cells| ==> cells[t] == CellAt(D[t], I[t], cols, width, height)
  }

  /** The shifted-out `div` and `img` are the entries following the emitted ones,
      and `divs`, `imgs` hold what comes after them. */
  ghost predicate Pending(D: seq<int>, I: seq<ImageDescriptor>, emitted: nat,
                          div: Option<int>, divs: seq<int>, img: Option<ImageDescriptor>, imgs: seq<ImageDescriptor>)
  {
    if D == [] then divs == [] && emitted == 0
    else
      && emitted < |D| && emitted < |I|
      && div == Some(D[emitted]) && divs == D[emitted + 1..]
      && img == Some(I[emitted]) && imgs == I[emitted + 1..]
  }

  /** Emitting the cell at position `i * cols + j` keeps both descriptions true. */
  lemma EmitStep(D: seq<int>, I: seq<ImageDescriptor>, cells: seq<Cell>, i: nat, j: nat,
                 cols: nat, width: nat, height: nat,
                 div: Option<int>, divs: seq<int>, img: Option<ImageDescriptor>, imgs: seq<ImageDescriptor>)
    requires StrictlyAscending(D) && |D| <= |I|
    requires j < cols
    requires Pending(D, I, |cells|, div, divs, img, imgs) && Scanned(cells, D, I, cols, width, height)
    requires divs != [] && div == Some(i * cols + j)
    ensures img.Some?
    ensures var cells' := cells + [Cell(i * height, j * width, img.value.src, LinkOf(img.value))];
      && Pending(D, I, |cells'|, Head(divs), Tail(divs), Head(imgs), Tail(imgs))
      && Scanned(cells', D, I, cols, width, height)
      && (Tail(divs) != [] ==> i * cols + j + 1 <= D[|cells'|])
  {
    RowAndColumn(i, j, cols);
    var t := |cells|;
    assert D[t] == i * cols + j;
    assert D[t] < D[t + 1];
  }

  /** The scan loop of `_populate` (its nested `for` loops over rows and columns).
      `sortedDivs` are the sampled cell indices after sorting, `sampledImgs` the
      sampled images; there are at least as many images as indices. */
  method RasterScan(rows: nat, cols: nat, width: nat, height: nat,
                    sortedDivs: seq<int>, sampledImgs: seq<ImageDescriptor>) returns (cells: seq<Cell>)
    requires StrictlyAscending(sortedDivs)
    requires forall t :: 0 <= t < |sortedDivs| ==> 0 <= sortedDivs[t] < rows * cols
    requires |sortedDivs| <= |sampledImgs|
    ensures cols > 0 || |sortedDivs| <= 1
    ensures cells == Placement(sortedDivs, sampledImgs, cols, width, height)
  {
    ghost var D, I := sortedDivs, sampledImgs;
    if cols == 0 {
      assert rows * cols == 0;
    }
    var divs, imgs := sortedDivs, sampledImgs;
    var position := 0;
    var div, img := Head(divs), Head(imgs);
    divs, imgs := Tail(divs), Tail(imgs);
    cells := [];
    var i := 0;
    while i < rows
      invariant 0 <= i <= rows
      invariant Pending(D, I, |cells|, div, divs, img, imgs)
      invariant Scanned(cells, D, I, cols, width, height)
      invariant divs != [] ==> position == i * cols && position <= D[|cells|]
    {
      var j := 0;
      while j < cols
        invariant 0 <= j <= cols
        invariant Pending(D, I, |cells|, div, divs, img, imgs)
        invariant Scanned(cells, D, I, cols, width, height)
        invariant divs != [] ==> position == i * cols + j && position <= D[|cells|]
      {
        if |divs| > 0 {
          if div == Some(position) {
            EmitStep(D, I, cells, i, j, cols, width, height, div, divs, img, imgs);
            var image := img.value;
            cells := cells + [Cell(i * height, j * width, image.src, LinkOf(image))];
            div, divs := Head(divs), Tail(divs);
            img, imgs := Head(imgs), Tail(imgs);
          }
          position := position + 1;
        } else {
          break;
        }
        j := j + 1;
      }
      assert divs != [] ==> position == (i + 1) * cols;
      i := i + 1;
    }
    assert divs == [];
  }

  /** Multiplying both sides of `a <= b` by a natural number keeps the order. */
  lemma MultiplyMonotone(a: int, b: int, c: nat)
    requires a <= b
    ensures a * c <= b * c
  {
    if a < b {
      MultiplyAtLeast(b - a, c);
    }
  }

  /** `a` comes before `b` in raster order: an earlier row, or the same row and an earlier column. */
  predicate Before(a: Cell, b: Cell)
  {
    a.top < b.top || (a.top == b.top && a.left < b.left)
  }

  /** A smaller linear index is in an earlier row, or in the same row and an earlier column. */
  lemma IndexOrder(a: int, b: int, cols: nat)
    requires 0 <= a < b && cols > 0
    ensures a / cols < b / cols || (a / cols == b / cols && a % cols < b % cols)
  {
    var qa, qb := a / cols, b / cols;
    if qa > qb {
      MultiplyAtLeast(qa - qb, cols);
      assert false;
    }
  }

  /** The cells of two increasing indices come in strict raster order. */
  lemma CellsInOrder(a: int, b: int, imgA: ImageDescriptor, imgB: ImageDescriptor, cols: nat, width: nat, height: nat)
    requires 0 <= a < b && cols > 0 && width > 0 && height > 0
    ensures Before(CellAt(a, imgA, cols, width, height), CellAt(b, imgB, cols, width, height))
  {
    IndexOrder(a, b, cols);
    if a / cols < b / cols {
      MultiplyAtLeast(b / cols - a / cols, height);
      assert (a / cols) * height < (b / cols) * height;
    } else {
      MultiplyAtLeast(b % cols - a % cols, width);
      assert (a % cols) * width < (b % cols) * width;
    }
  }

  /** Cells for increasing indices come in strict raster order, so no two cells share a position. */
  lemma {:induction false} PlacementInRasterOrder(divs: seq<int>, imgs: seq<ImageDescriptor>, cols: nat, width: nat, height: nat)
    requires StrictlyAscending(divs)
    requires forall t :: 0 <= t < |divs| ==> 0 <= divs[t]
    requires cols > 0 || |divs| <= 1
    requires |divs| <= |imgs|
    requires width > 0 && height > 0
    ensures var r := Placement(divs, imgs, cols, width, height);
      forall s, t :: 0 <= s < t < |r| ==> Before(r[s], r[t]) && (r[s].top, r[s].left) != (r[t].top, r[t].left)
  {
    var r := Placement(divs, imgs, cols, width, height);
    forall s, t | 0 <= s < t < |r|
      ensures Before(r[s], r[t]) && (r[s].top, r[s].left) != (r[t].top, r[t].left)
    {
      CellsInOrder(divs[s], divs[t], imgs[s], imgs[t], cols, width, height);
    }
  }

  /** The cell of an index inside a `rows` by `cols` grid lies entirely inside it. */
  lemma CellInsideGrid(d: int, img: ImageDescriptor, rows: nat, cols: nat, width: nat, height: nat)
    requires 0 <= d < rows * cols && cols > 0
    ensures var c := CellAt(d, img, cols, width, height);
      && 0 <= c.top && c.top + height <= rows * height
      && 0 <= c.left && c.left + width <= cols * width
  {
    var q, m := d / cols, d % cols;
    assert d == q * cols + m && 0 <= m < cols;
    assert q < rows by {
      if q >= rows {
        MultiplyMonotone(rows, q, cols);
        assert false;
      }
    }
    assert 0 <= q;
    ProductBelow(q, rows, height);
    ProductBelow(m, cols, width);
  }

  /** A slot before the last of `n` slots of size `size` ends no later than `n * size`. */
  lemma ProductBelow(k: int, n: nat, size: nat)
    requires 0 <= k < n
    ensures 0 <= k * size && k * size + size <= n * size
  {
    MultiplyMonotone(0, k, size);
    MultiplyMonotone(k + 1, n, size);
    assert (k + 1) * size == k * size + size;
  }

  /** Every emitted cell lies entirely inside the `rows` by `cols` grid of cells. */
  lemma {:induction false} PlacementInsideGrid(divs: seq<int>, imgs: seq<ImageDescriptor>, rows: nat, cols: nat, width: nat, height: nat)
    requires forall t :: 0 <= t < |divs| ==> 0 <= divs[t] < rows * cols
    requires cols > 0 || |divs| <= 1
    requires |divs| <= |imgs|
    ensures var r := Placement(divs, imgs, cols, width, height);
      forall t :: 0 <= t < |r| ==>
        && 0 <= r[t].top && r[t].top + height <= rows * height
        && 0 <= r[t].left && r[t].left + width <= cols * width
  {
    var r := Placement(divs, imgs, cols, width, height);
    forall t | 0 <= t < |r|
      ensures 0 <= r[t].top && r[t].top + height <= rows * height
      ensures 0 <= r[t].left && r[t].left + width <= cols * width
    {
      CellInsideGrid(divs[t], imgs[t], rows, cols, width, height);
    }
  }
}

=== FILE: sampler.dfy ===
/**
 * `_randomFromArray`: shuffle a copy of an array by repeatedly splicing out a
 * random index, then keep a prefix. `Math.random` is replaced by an explicit
 * stream of draws.
 */
module Sampler {
  import opened Common

  /** The index the next pass splices out of `n` remaining elements: the next draw
      reduced into [0, n) (0 once the stream is exhausted). Any sequence of
      in-range indices is expressible as a stream of draws. */
  function Pick(draws: seq<nat>, n: nat): (i: nat)
    requires n > 0
    ensures i < n
    ensures |draws| > 0 && draws[0] < n ==> i == draws[0]
  {
    if |draws| > 0 then draws[0] % n else 0
  }

  /** `tmp.splice(k, 1)` applied to `s`: what remains. */
  function Splice<T>(s: seq<T>, k: nat): (r: seq<T>)
    requires k < |s|
    ensures |r| == |s| - 1
    ensures multiset(r) + multiset{s[k]} == multiset(s)
  {
    assert s == s[..k] + [s[k]] + s[k + 1..];
    s[..k] + s[k + 1..]
  }

  /** The full shuffle the `while (tmp.length)` loop builds from `s` and the draws. */
  function Shuffle<T>(s: seq<T>, draws: seq<nat>): (r: seq<T>)
    ensures |r| == |s|
    ensures multiset(r) == multiset(s)
    decreases |s|
  {
    if |s| == 0 then []
    else
      var k := Pick(draws, |s|);
      [s[k]] + Shuffle(Splice(s, k), Tail(draws))
  }

  /** `_randomFromArray(items, count)` for a non-negative count: the first `count`
      elements of the shuffle, never more than the input holds, each element of the
      input used at most as often as it occurs there. The input is a value, so the
      caller's array is untouched, as the `slice()` clone guarantees in the source. */
  method RandomFromArray<T>(items: seq<T>, count: nat, draws: seq<nat>) returns (result: seq<T>)
    ensures |result| == Min(count, |items|)
    ensures result == Shuffle(items, draws)[..Min(count, |items|)]
    ensures multiset(result) <= multiset(items)
    ensures count >= |items| ==> multiset(result) == multiset(items)
  {
    result := [];
    var tmp := items;
    var rest := draws;
    while |tmp| > 0
      invariant result + Shuffle(tmp, rest) == Shuffle(items, draws)
      invariant multiset(result) + multiset(tmp) == multiset(items)
      decreases |tmp|
    {
      var k := Pick(rest, |tmp|);
      ShuffleStep(result, tmp, rest);
      SpliceStep(result, tmp, k);
      result := result + [tmp[k]];
      tmp := Splice(tmp, k);
      rest := Tail(rest);
    }
    assert Shuffle(tmp, rest) == [];
    assert result == Shuffle(items, draws);
    assert multiset(result) == multiset(items);
    var m := Min(count, |items|);
    PrefixSubMultiset(result, m);
    assert m == |result| ==> result[..m] == result;
    result := result[..m];
  }

  /** One pass of the loop moves the spliced element from the shuffle of what
      remains to the end of what has been collected. */
  lemma ShuffleStep<T>(done: seq<T>, tmp: seq<T>, draws: seq<nat>)
    requires |tmp| > 0
    ensures var k := Pick(draws, |tmp|);
      done + Shuffle(tmp, draws) == (done + [tmp[k]]) + Shuffle(Splice(tmp, k), Tail(draws))
  {
    var k := Pick(draws, |tmp|);
    AppendAssociates(done, [tmp[k]], Shuffle(Splice(tmp, k), Tail(draws)));
  }

  /** Concatenation is associative. */
  lemma AppendAssociates<T>(a: seq<T>, b: seq<T>, c: seq<T>)
    ensures a + (b + c) == (a + b) + c
  {
  }

  /** The same pass keeps every element either collected or still remaining. */
  lemma SpliceStep<T>(done: seq<T>, tmp: seq<T>, k: nat)
    requires k < |tmp|
    ensures multiset(done) + multiset(tmp) == multiset(done + [tmp[k]]) + multiset(Splice(tmp, k))
  {
    assert multiset(done + [tmp[k]]) == multiset(done) + multiset{tmp[k]};
  }

  /** The list [0, 1, ..., n - 1]: it holds exactly the indices of a grid of `n` cells. */
  function Range(n: nat): (r: seq<int>)
    ensures |r| == n
    ensures forall x :: x in r <==> 0 <= x < n
  {
    var r := seq(n, i => i);
    forall x | x in r ensures 0 <= x < n {
      var t :| 0 <= t < |r| && r[t] == x;
    }
    forall x | 0 <= x < n ensures x in r {
      assert r[x] == x;
    }
    r
  }

  /** The `for` loop of `_populate` that fills `divs[i] = i` for every cell of the grid. */
  method CellIndices(total: nat) returns (divs: seq<int>)
    ensures divs == Range(total)
  {
    divs := [];
    var i := 0;
    while i < total
      invariant 0 <= i <= total
      invariant divs == Range(i)
    {
      divs := divs + [i];
      i := i + 1;
    }
  }

  /** Every cell index occurs in [0, n) exactly once, and nothing else occurs. */
  lemma {:induction false} RangeOccurrences(n: nat)
    ensures forall x :: multiset(Range(n))[x] == if 0 <= x < n then 1 else 0
  {
    if n > 0 {
      RangeOccurrences(n - 1);
      assert Range(n) == Range(n - 1) + [n - 1];
    }
  }

  /** A prefix never uses an element more often than the whole sequence. */
  lemma PrefixSubMultiset<T>(s: seq<T>, m: nat)
    requires m <= |s|
    ensures multiset(s[..m]) <= multiset(s)
  {
    assert s == s[..m] + s[m..];
  }

  /** A sample of the cell indices of a grid of `total` cells: at most one occurrence
      of each index, all inside the grid. */
  lemma {:induction false} SampledIndicesInGrid(total: nat, count: nat, draws: seq<nat>, s: seq<int>)
    requires s == Shuffle(Range(total), draws)[..Min(count, total)]
    ensures forall x :: multiset(s)[x] <= 1
    ensures forall t :: 0 <= t < |s| ==> 0 <= s[t] < total
  {
    var full := Shuffle(Range(total), draws);
    PrefixSubMultiset(full, Min(count, total));
    RangeOccurrences(total);
    forall t | 0 <= t < |s| ensures 0 <= s[t] < total {
      assert s[t] in multiset(s);
    }
  }
}

=== FILE: sorting.dfy ===
/**
 * `divs.sort(function (a, b) { return a - b; })`: the library sort with a
 * numeric comparator, modelled as a sorting function on integer sequences.
 */
module Sorting {

  /** Non-decreasing order, the order the comparator `a - b` asks for. */
  predicate Ascending(s: seq<int>)
  {
    forall i, j :: 0 <= i < j < |s| ==> s[i] <= s[j]
  }

  /** Strictly increasing order. */
  predicate StrictlyAscending(s: seq<int>)
  {
    forall i, j :: 0 <= i < j < |s| ==> s[i] < s[j]
  }

  /** Places `x` in an ascending sequence. */
  function Insert(x: int, s: seq<int>): (r: seq<int>)
    requires Ascending(s)
    ensures |r| == |s| + 1
    ensures r[0] == x || (s != [] && r[0] == s[0])
    ensures Ascending(r)
    ensures multiset(r) == multiset(s) + multiset{x}
    decreases |s|
  {
    if s == [] || x <= s[0] then [x] + s
    else
      var rest := Insert(x, s[1..]);
      assert s == [s[0]] + s[1..];
      ConsAscending(s[0], rest);
      [s[0]] + rest
  }

  /** An element no larger than the head of an ascending sequence extends it. */
  lemma ConsAscending(a: int, s: seq<int>)
    requires Ascending(s)
    requires s != [] ==> a <= s[0]
    ensures Ascending([a] + s)
  {
    var r := [a] + s;
    forall i, j | 0 <= i < j < |r|
      ensures r[i] <= r[j]
    {
      if i > 0 {
        assert r[i] == s[i - 1] && r[j] == s[j - 1];
      } else {
        assert r[j] == s[j - 1];
      }
    }
  }

  /** The result of the numeric sort: ascending, and a permutation of its input. */
  function SortAscending(s: seq<int>): (r: seq<int>)
    ensures Ascending(r)
    ensures multiset(r) == multiset(s)
    decreases |s|
  {
    if s == [] then []
    else
      assert s == [s[0]] + s[1..];
      Insert(s[0], SortAscending(s[1..]))
  }

  /** Two equal elements at distinct positions make that value occur twice. */
  lemma TwiceAt(s: seq<int>, i: nat, j: nat)
    requires i < j < |s| && s[i] == s[j]
    ensures multiset(s)[s[i]] >= 2
  {
    assert s == s[..i] + [s[i]] + s[i + 1..j] + [s[j]] + s[j + 1..];
  }

  /** Sorting a sequence without repeated values yields a strictly increasing one. */
  lemma {:induction false} SortedWithoutRepeats(s: seq<int>)
    requires Ascending(s)
    requires forall x :: multiset(s)[x] <= 1
    ensures StrictlyAscending(s)
  {
    forall i, j | 0 <= i < j < |s| ensures s[i] < s[j] {
      if s[i] == s[j] {
        TwiceAt(s, i, j);
        assert false;
      }
    }
  }
}
